=== FILE: README.md ===
# KeyPad emulator model

A Dafny model of the `KeyPad` emulator from the Ubuntu Keyboard autopilot test suite
(`tests/autopilot/ubuntu_keyboard/emulators/keypad.py`). The emulator drives the
on-screen keyboard during UI tests and keeps three caches:

- a label -> rectangle map, filled from the character keys (keyed by label) and then from the action keys (keyed by action). Each key's non-empty secondary ("shifted") label is keyed to the same rectangle.
- a normal list, holding one visible label per key of either category.
- a shifted list, holding every non-empty secondary label.

It uses these caches to press a key. If the label needs the other state, it first taps "shift" to move between the NORMAL and SHIFTED states. Then it taps the label's rectangle.

In the model:

- The widget queries' results are two sequences of `KeyWidget` records: character keys and action keys.
- `update_key_positions` and `_update_contained_keys` are pure folds over those sequences.
- The keypad's live state and visibility are parameters.
- `press_key` returns a `PressOutcome`:
  - `NoOp`;
  - `Pressed(taps, state)`: the rectangles tapped, in order, and the state the label was tapped in;
  - `Failed(error, taps, state)`: the error, plus the taps already made before it was raised, and the state after them (the starting state when nothing was tapped). A shift tap is not undone when the later label lookup fails.

Files:

- `key_types.dfy`: module `KeyTypes`, the data model (`Rect`, `State`, `KeyWidget`, `KeyPad`, errors).
- `key_positions.dfy`: module `KeyPositions`, `update_key_positions` and `get_key_position`.
- `contained_keys.dfy`: module `ContainedKeys`, `_update_contained_keys`, `contains_key` and `_get_keys_required_keypad_state`.
- `keypad.dfy`: module `KeyPadEmulator`, construction, `_switch_to_state` and `press_key`; a tap (`_tap_key`) is recorded as the rectangle appended to the trace.

The containment lists always use a key's visible label, even for action keys: the `label_fn` argument of `_update_contained_keys` is never used. The position map, however, keys an action key by its action. So an action key whose label differs from its action is contained but has no rectangle under its label. Unless another key writes that label (or offers that action), pressing it by label fails with a not-found error, and pressing it by action is a silent no-op. The model keeps this behaviour as written (`ActionLabelWithoutPositionExample`).

## Model

| member | source | states |
|---|---|---|
| KeyTypes.Flip | tests/autopilot/ubuntu_keyboard/emulators/keypad.py:102-105 | the state expected after a shift tap is always the other of the two states |
| KeyPositions.RecordKey | tests/autopilot/ubuntu_keyboard/emulators/keypad.py:65-68 | recording one key adds exactly its primary id and its non-empty secondary label, both mapped to its rectangle; every other entry is unchanged |
| KeyPositions.RecordKeys | tests/autopilot/ubuntu_keyboard/emulators/keypad.py:62-68 | recording a sequence of keys never removes a cached label |
| KeyPositions.RecordKeysDomain | tests/autopilot/ubuntu_keyboard/emulators/keypad.py:62-68 | after recording, a label is cached exactly when it was cached before or some key writes it |
| KeyPositions.RecordKeysLastWins | tests/autopilot/ubuntu_keyboard/emulators/keypad.py:62-68 | the last key in the sequence that writes a label decides its rectangle (later writes overwrite earlier ones) |
| KeyPositions.RecordKeysUntouched | tests/autopilot/ubuntu_keyboard/emulators/keypad.py:62-68 | a label no key writes keeps its previous rectangle |
| KeyPositions.UpdateKeyPositionsLastWins | tests/autopilot/ubuntu_keyboard/emulators/keypad.py:61-71 | character keys are keyed by label and action keys by action. An action key overrides every character key, and within a category the last writer wins. Unwritten labels and both containment lists are unchanged |
| KeyPositions.UpdateKeyPositions | tests/autopilot/ubuntu_keyboard/emulators/keypad.py:61-71 | only the position map changes, and no previously cached label is dropped. The last action key recorded owns the entry under its action. With no action keys, the last character key owns the entry under its label |
| KeyPositions.GetKeyPosition | tests/autopilot/ubuntu_keyboard/emulators/keypad.py:136-143 | returns the stored rectangle unchanged exactly when the label is cached; otherwise returns the not-found error (the label it carries is a tag the model adds) |
| ContainedKeys.Labels | tests/autopilot/ubuntu_keyboard/emulators/keypad.py:76-78 | exactly one visible label per key, in query order |
| ContainedKeys.ShiftedLabels | tests/autopilot/ubuntu_keyboard/emulators/keypad.py:76-80 | holds exactly the keys' non-empty secondary labels and never contains "" |
| ContainedKeys.UpdateContainedKeys | tests/autopilot/ubuntu_keyboard/emulators/keypad.py:73-83 | the normal list grows by exactly one visible label per key: character keys first, then action keys, whose label (not action) is used. The shifted list keeps its old entries as a prefix, gains exactly the non-empty secondary labels, and stays free of "". Positions are untouched |
| ContainedKeys.ContainsKey | tests/autopilot/ubuntu_keyboard/emulators/keypad.py:53-59 | a label is contained exactly when the required-state classification succeeds for it, so the unknown-key error is raised only for labels contains_key rejects |
| ContainedKeys.RequiredState | tests/autopilot/ubuntu_keyboard/emulators/keypad.py:85-91 | NORMAL exactly when the label is in the normal list, even if it is also shifted. SHIFTED exactly when it is only in the shifted list. An unknown-key error exactly when it is in neither list |
| KeyPadEmulator.Build | tests/autopilot/ubuntu_keyboard/emulators/keypad.py:37-51 | construction starts from empty caches. The normal list is exactly the keys' visible labels in query order, character keys first. The shifted list never holds "". The last action key owns the entry under its action |
| KeyPadEmulator.SwitchToState | tests/autopilot/ubuntu_keyboard/emulators/keypad.py:93-110 | no taps when already in the target state. Otherwise exactly one tap, at the "shift" rectangle, ending in the target state. Fails with no tap when "shift" is not cached |
| KeyPadEmulator.PressKey | tests/autopilot/ubuntu_keyboard/emulators/keypad.py:112-134 | no-op exactly for uncontained labels, even on an invisible keypad. A contained label on an invisible keypad fails before any tap. On success there are one or two taps and the last is at the label's rectangle. There are two taps exactly when the state changed, and the first is then the shift tap. The label is tapped in the required state. The unknown-key error never escapes |
| KeyPadEmulator.PressKeySucceedsIff | tests/autopilot/ubuntu_keyboard/emulators/keypad.py:118-143 | press succeeds if and only if all of these hold: the label is contained, the keypad is visible, the label is cached, and "shift" is cached whenever a switch is needed |
| KeyPadEmulator.PressKeyMissingPosition | tests/autopilot/ubuntu_keyboard/emulators/keypad.py:129-141 | a contained label with no rectangle fails with the not-found error. Any needed shift tap has already been made, and the state has already changed |
| KeyPadEmulator.PressKeyMissingShift | tests/autopilot/ubuntu_keyboard/emulators/keypad.py:98-110 | a needed switch with no cached "shift" fails before any tap and leaves the state unchanged |
| KeyPadEmulator.BuildNormalList | tests/autopilot/ubuntu_keyboard/emulators/keypad.py:73-83 | after construction, the normal list holds exactly the visible labels of the keys of both categories |
| KeyPadEmulator.BuildShiftedList | tests/autopilot/ubuntu_keyboard/emulators/keypad.py:79-80 | after construction, the shifted list holds exactly the non-empty secondary labels of the keys of both categories |
| KeyPadEmulator.BuildContainsKey | tests/autopilot/ubuntu_keyboard/emulators/keypad.py:53-59 | after construction, a label is contained exactly when some key offers it as its visible or non-empty secondary label. A label no key offers is not contained |
| KeyPadEmulator.BuildKeyPosition | tests/autopilot/ubuntu_keyboard/emulators/keypad.py:61-71 | after construction, get_key_position returns the last writing action key's rectangle, else the last writing character key's rectangle. It fails when no key wrote the label |
| KeyPadEmulator.ShiftedToNormalExample | tests/autopilot/ubuntu_keyboard/emulators/keypad.py:118-134 | a normal-only key pressed while SHIFTED gives exactly a shift tap, then the key tap, ending NORMAL |
| KeyPadEmulator.ActionLabelWithoutPositionExample | tests/autopilot/ubuntu_keyboard/emulators/keypad.py:70-83 | an action key whose label differs from its action is contained, yet pressing it by label fails with a not-found error and no taps |

## Left out

- KeyPadEmulator.PressKey: the state in its result is the state the label was tapped in. Any state change that the label tap itself causes on the live keypad (for example, a one-shot shift returning to NORMAL) is not modelled, because the source never reads the state after that tap.
- KeyPositions.GetKeyPosition: the source raises a bare `RuntimeError()` with no argument. The label carried by `KeyNotFound` is a tag the model adds, so the model can tell a missing "shift" apart from a missing key label, and the source cannot. In the source all three errors are `RuntimeError`s, told apart only by their message (keypad.py:91, 127, 141).
- Widget introspection (`select_many`, `no_automatic_refreshing`, `globalRect`) is not modelled. The query results are input sequences. Construction assumes both queries return the same sequences, although a live UI could answer the two queries differently.
- The keypad's `state` and `visible` are live properties of the widget in the source. The model takes them as inputs.
- `wait_for` is modelled as succeeding: after the shift tap, the state is the flipped state. Timeouts and a state that never arrives are left out.
- Pointers are not modelled. `press_key` creates a fresh touch pointer when the caller passes none. `_tap_key` taps with the pointer it is given, or with the emulator's own pointer when given none, so on the `press_key` path the emulator's own pointer is never used. The model records only the rectangle tapped. Failures raised by the input system are left out.
- Logging is left out: it has no effect on behaviour.
- Secondary labels are strings, with "" meaning none. A widget reporting some other non-string value is not modelled.
- The model covers only the `KeyPad` emulator in `tests/autopilot/ubuntu_keyboard/emulators/keypad.py`; the keyboard's word-prediction engine and language plugins are separate components outside it.

=== FILE: contained_keys.dfy ===
/**
 The two containment lists: `_update_contained_keys` as a fold over the
 query results, `contains_key`, and the classification of a label into the
 state it needs (`_get_keys_required_keypad_state`).
 */
module ContainedKeys {
  import opened KeyTypes

  /** The visible label of every widget, in order. Action keys contribute
      their label too, not their action. */
  function Labels(ws: seq<KeyWidget>): (r: seq<string>)
    ensures |r| == |ws|
    ensures forall i :: 0 <= i < |ws| ==> r[i] == ws[i].text
    decreases |ws|
  {
    if |ws| == 0 then []
    else Labels(ws[..|ws| - 1]) + [ws[|ws| - 1].text]
  }

  /** The non-empty secondary labels of the widgets, in order. */
  function ShiftedLabels(ws: seq<KeyWidget>): (r: seq<string>)
    ensures "" !in r
    ensures |r| <= |ws|
    ensures forall l :: l in r <==> l != "" && exists i :: 0 <= i < |ws| && ws[i].shifted == l
    decreases |ws|
  {
    if |ws| == 0 then []
    else
      var front, last := ws[..|ws| - 1], ws[|ws| - 1];
      assert forall i :: 0 <= i < |front| ==> front[i] == ws[i];
      if last.shifted != "" then ShiftedLabels(front) + [last.shifted]
      else ShiftedLabels(front)
  }

  /**
   _update_contained_keys: appends one visible label per widget to the
   normal list (character keys, then action keys) and each non-empty
   secondary label to the shifted list.
   */
  function UpdateContainedKeys(pad: KeyPad, chars: seq<KeyWidget>, actions: seq<KeyWidget>): (r: KeyPad)
    ensures r.keyPos == pad.keyPos
    ensures |r.contained| == |pad.contained| + |chars| + |actions|
    ensures r.contained[..|pad.contained|] == pad.contained
    ensures forall i :: 0 <= i < |chars| ==> r.contained[|pad.contained| + i] == chars[i].text
    ensures forall i :: 0 <= i < |actions| ==>
              r.contained[|pad.contained| + |chars| + i] == actions[i].text
    ensures forall l :: l in r.containedShifted <==>
              || l in pad.containedShifted
              || (l != "" && exists i :: 0 <= i < |chars| && chars[i].shifted == l)
              || (l != "" && exists i :: 0 <= i < |actions| && actions[i].shifted == l)
    ensures "" !in pad.containedShifted ==> "" !in r.containedShifted
    ensures |pad.containedShifted| <= |r.containedShifted|
    ensures r.containedShifted[..|pad.containedShifted|] == pad.containedShifted
  {
    var shifted := pad.containedShifted + (ShiftedLabels(chars) + ShiftedLabels(actions));
    assert shifted[..|pad.containedShifted|] == pad.containedShifted;
    pad.(contained := pad.contained + Labels(chars) + Labels(actions),
         containedShifted := shifted)
  }

  /** contains_key: the label is in the normal list or in the shifted list,
      which is exactly when it can be classified into a required state. */
  function ContainsKey(pad: KeyPad, name: string): (r: bool)
    ensures r <==> RequiredState(pad, name).Ok?
  {
    name in pad.contained || name in pad.containedShifted
  }

  /**
   _get_keys_required_keypad_state: NORMAL whenever the label is in the
   normal list, even when it is in the shifted list as well; SHIFTED when it
   is only in the shifted list; an unknown-key error otherwise.
   */
  function RequiredState(pad: KeyPad, name: string): (r: Result<State>)
    ensures r == Ok(Normal) <==> name in pad.contained
    ensures r == Ok(Shifted) <==> name !in pad.contained && name in pad.containedShifted
    ensures r.Err? <==> name !in pad.contained && name !in pad.containedShifted
    ensures r.Err? ==> r.error == UnknownKey
  {
    if name in pad.contained then Ok(Normal)
    else if name in pad.containedShifted then Ok(Shifted)
    else Err(UnknownKey)
  }
}

=== FILE: key_positions.dfy ===
/**
 The label -> rectangle cache: `update_key_positions` as a fold over the
 character-key and action-key query results, and `get_key_position`.
 */
module KeyPositions {
  import opened KeyTypes

  /** Recording widget `w` of category `cat` writes an entry under `id`:
      its primary id always, its secondary label when that is not empty. */
  predicate Writes(cat: Category, w: KeyWidget, id: string)
  {
    PrimaryId(cat, w) == id || (w.shifted != "" && w.shifted == id)
  }

  /** `ws[i]` is the last widget of `ws` that writes under `id`. */
  ghost predicate LastWriter(cat: Category, ws: seq<KeyWidget>, id: string, i: int)
  {
    && 0 <= i < |ws|
    && Writes(cat, ws[i], id)
    && forall j :: i < j < |ws| ==> !Writes(cat, ws[j], id)
  }

  /** No widget of `ws` writes under `id`. */
  ghost predicate Untouched(cat: Category, ws: seq<KeyWidget>, id: string)
  {
    forall i :: 0 <= i < |ws| ==> !Writes(cat, ws[i], id)
  }

  /** Records one widget: its rectangle under its primary id, then under its
      secondary label when it has one. */
  function RecordKey(pos: map<string, Rect>, cat: Category, w: KeyWidget): (r: map<string, Rect>)
    ensures forall id :: id in r <==> id in pos || Writes(cat, w, id)
    ensures forall id :: Writes(cat, w, id) ==> r[id] == w.rect
    ensures forall id :: id in pos && !Writes(cat, w, id) ==> r[id] == pos[id]
  {
    var p := pos[PrimaryId(cat, w) := w.rect];
    if w.shifted != "" then p[w.shifted := w.rect] else p
  }

  /** Records every widget of `ws`, first to last. */
  function RecordKeys(pos: map<string, Rect>, cat: Category, ws: seq<KeyWidget>): (r: map<string, Rect>)
    ensures pos.Keys <= r.Keys
    decreases |ws|
  {
    if |ws| == 0 then pos
    else RecordKey(RecordKeys(pos, cat, ws[..|ws| - 1]), cat, ws[|ws| - 1])
  }

  /** After recording `ws`, `id` is cached exactly when it was cached before
      or some widget of `ws` writes it. */
  lemma {:induction false} RecordKeysDomain(pos: map<string, Rect>, cat: Category, ws: seq<KeyWidget>, id: string)
    ensures id in RecordKeys(pos, cat, ws) <==>
              id in pos || exists i :: 0 <= i < |ws| && Writes(cat, ws[i], id)
    decreases |ws|
  {
    if |ws| > 0 {
      var front := ws[..|ws| - 1];
      RecordKeysDomain(pos, cat, front, id);
      if exists i :: 0 <= i < |ws| && Writes(cat, ws[i], id) {
        var i :| 0 <= i < |ws| && Writes(cat, ws[i], id);
        if i < |front| {
          assert Writes(cat, front[i], id);
        }
      }
      if exists i :: 0 <= i < |front| && Writes(cat, front[i], id) {
        var i :| 0 <= i < |front| && Writes(cat, front[i], id);
        assert Writes(cat, ws[i], id);
      }
    }
  }

  /** The last widget of `ws` that writes `id` decides its rectangle. */
  lemma {:induction false} RecordKeysLastWins(pos: map<string, Rect>, cat: Category, ws: seq<KeyWidget>, id: string, i: int)
    requires LastWriter(cat, ws, id, i)
    ensures id in RecordKeys(pos, cat, ws)
    ensures RecordKeys(pos, cat, ws)[id] == ws[i].rect
    decreases |ws|
  {
    var front, last := ws[..|ws| - 1], ws[|ws| - 1];
    if i < |ws| - 1 {
      assert !Writes(cat, last, id);
      assert LastWriter(cat, front, id, i) by {
        assert front[i] == ws[i];
        forall j | i < j < |front|
          ensures !Writes(cat, front[j], id)
        {
          assert front[j] == ws[j];
        }
      }
      RecordKeysLastWins(pos, cat, front, id, i);
    }
  }

  /** An id no widget of `ws` writes keeps its old rectangle. */
  lemma {:induction false} RecordKeysUntouched(pos: map<string, Rect>, cat: Category, ws: seq<KeyWidget>, id: string)
    requires Untouched(cat, ws, id)
    requires id in pos
    ensures id in RecordKeys(pos, cat, ws)
    ensures RecordKeys(pos, cat, ws)[id] == pos[id]
    decreases |ws|
  {
    if |ws| > 0 {
      var front := ws[..|ws| - 1];
      assert Untouched(cat, front, id) by {
        forall j | 0 <= j < |front|
          ensures !Writes(cat, front[j], id)
        {
          assert front[j] == ws[j];
        }
      }
      RecordKeysUntouched(pos, cat, front, id);
      assert !Writes(cat, ws[|ws| - 1], id);
    }
  }

  /** update_key_positions: character keys first, keyed by label, then
      action keys, keyed by action. Only the position map changes; nothing
      cached before is dropped; the very last key recorded owns its id. */
  function UpdateKeyPositions(pad: KeyPad, chars: seq<KeyWidget>, actions: seq<KeyWidget>): (r: KeyPad)
    ensures r.contained == pad.contained
    ensures r.containedShifted == pad.containedShifted
    ensures pad.keyPos.Keys <= r.keyPos.Keys
    ensures |actions| > 0 ==>
              var last := actions[|actions| - 1];
              last.action in r.keyPos && r.keyPos[last.action] == last.rect
    ensures |actions| == 0 && |chars| > 0 ==>
              var last := chars[|chars| - 1];
              last.text in r.keyPos && r.keyPos[last.text] == last.rect
  {
    pad.(keyPos := RecordKeys(RecordKeys(pad.keyPos, CharKey, chars), ActionKey, actions))
  }

  /** The cache after update_key_positions: an action key that writes `id`
      overrides every character key, the last writer of a category wins,
      and ids nobody writes keep their previous rectangle. The containment
      lists are not touched. */
  lemma UpdateKeyPositionsLastWins(pad: KeyPad, chars: seq<KeyWidget>, actions: seq<KeyWidget>, id: string)
    ensures var r := UpdateKeyPositions(pad, chars, actions);
      && r.contained == pad.contained
      && r.containedShifted == pad.containedShifted
      && (id in r.keyPos <==>
            || id in pad.keyPos
            || (exists i :: 0 <= i < |chars| && Writes(CharKey, chars[i], id))
            || (exists i :: 0 <= i < |actions| && Writes(ActionKey, actions[i], id)))
      && (forall i :: LastWriter(ActionKey, actions, id, i) ==> r.keyPos[id] == actions[i].rect)
      && (forall i :: LastWriter(CharKey, chars, id, i) && Untouched(ActionKey, actions, id) ==>
            r.keyPos[id] == chars[i].rect)
      && (Untouched(CharKey, chars, id) && Untouched(ActionKey, actions, id) && id in pad.keyPos ==>
            r.keyPos[id] == pad.keyPos[id])
  {
    var mid := RecordKeys(pad.keyPos, CharKey, chars);
    RecordKeysDomain(pad.keyPos, CharKey, chars, id);
    RecordKeysDomain(mid, ActionKey, actions, id);
    forall i | LastWriter(ActionKey, actions, id, i)
      ensures RecordKeys(mid, ActionKey, actions)[id] == actions[i].rect
    {
      RecordKeysLastWins(mid, ActionKey, actions, id, i);
    }
    forall i | LastWriter(CharKey, chars, id, i) && Untouched(ActionKey, actions, id)
      ensures RecordKeys(mid, ActionKey, actions)[id] == chars[i].rect
    {
      RecordKeysLastWins(pad.keyPos, CharKey, chars, id, i);
      RecordKeysUntouched(mid, ActionKey, actions, id);
    }
    if Untouched(CharKey, chars, id) && Untouched(ActionKey, actions, id) && id in pad.keyPos {
      RecordKeysUntouched(pad.keyPos, CharKey, chars, id);
      RecordKeysUntouched(mid, ActionKey, actions, id);
    }
  }

  /** get_key_position: the cached rectangle, unchanged, or a not-found
      error (tagged with the label by this model; the source raises a bare
      runtime error). */
  function GetKeyPosition(pad: KeyPad, name: string): (r: Result<Rect>)
    ensures r.Ok? <==> name in pad.keyPos
    ensures r.Ok? ==> r.value == pad.keyPos[name]
    ensures r.Err? ==> r.error == KeyNotFound(name)
  {
    if name in pad.keyPos then Ok(pad.keyPos[name]) else Err(KeyNotFound(name))
  }
}

=== FILE: key_types.dfy ===
/**
 The data model of the on-screen keyboard's KeyPad emulator: screen
 rectangles, the two keypad states, the key widgets the keypad is built
 from, the caches the emulator keeps and the errors it raises.
 */
module KeyTypes {

  /** A key's global screen rectangle (x, y, width, height). */
  datatype Rect = Rect(x: int, y: int, width: int, height: int)

  /** The keypad's input mode. The only transition is a tap on "shift". */
  datatype State = Normal | Shifted

  /** The state a tap on "shift" leads to from `s`. */
  function Flip(s: State): (r: State)
    ensures r != s
  {
    match s
    case Normal => Shifted
    case Shifted => Normal
  }

  /** The two widget categories the keypad queries. */
  datatype Category = CharKey | ActionKey

  /**
   One key widget as the widget query reports it: its visible label (`text`), its
   action identifier, its secondary label ("" when it has none) and its
   rectangle.
   */
  datatype KeyWidget = KeyWidget(text: string, action: string, shifted: string, rect: Rect)

  /** The id a widget's rectangle is cached under: the label of a character
      key, the action of an action key. */
  function PrimaryId(cat: Category, w: KeyWidget): string
  {
    match cat
    case CharKey => w.text
    case ActionKey => w.action
  }

  /**
   The emulator's caches: label -> rectangle, the labels reachable in the
   NORMAL state and the labels reachable in the SHIFTED state.
   */
  datatype KeyPad = KeyPad(keyPos: map<string, Rect>, contained: seq<string>, containedShifted: seq<string>)

  /** The keypad before any widget has been recorded. */
  const EmptyPad := KeyPad(map[], [], [])

  /** The label of the key that toggles the state. */
  const ShiftId := "shift"

  /** The failures the emulator raises. */
  datatype KeyPadError =
    | KeyNotFound(name: string)   // no cached rectangle for the label
    | UnknownKey                   // label in neither containment list
    | NotVisible                   // keypad not visible/enabled

  datatype Result<+T> = Ok(value: T) | Err(error: KeyPadError)

  /** Taps performed so far, in order, and the keypad state they lead to. */
  datatype Trace = Trace(taps: seq<Rect>, state: State)
}

=== FILE: keypad.dfy ===
/**
 The KeyPad emulator proper: construction from the widget query results,
 the shift-state machine and press_key as a deterministic trace of taps.
 The keypad's live state and visibility are inputs; a tap is recorded as
 the rectangle it lands on.
 */
module KeyPadEmulator {
  import opened KeyTypes
  import opened KeyPositions
  import opened ContainedKeys

  /** What press_key does: nothing at all, a successful trace, or an error
      together with the taps already made. `state` is the keypad's state after
      the listed taps: for `Pressed`, the state the label was tapped in (what
      the label tap itself does to the live state is not modelled); for
      `Failed`, the state after any shift tap, or the starting state when
      nothing was tapped. */
  datatype PressOutcome =
    | NoOp
    | Pressed(taps: seq<Rect>, state: State)
    | Failed(error: KeyPadError, taps: seq<Rect>, state: State)

  /** The widget `w` makes `name` reachable: as its visible label, or as its
      non-empty secondary label. */
  predicate Offers(w: KeyWidget, name: string)
  {
    w.text == name || (w.shifted != "" && w.shifted == name)
  }

  /** The constructor: positions first, then the containment lists, both
      from the same character-key and action-key query results. The normal
      list is the keys' visible labels in query order, the shifted list
      never holds "", and the last action key owns its action's entry. */
  function Build(chars: seq<KeyWidget>, actions: seq<KeyWidget>): (r: KeyPad)
    ensures |r.contained| == |chars| + |actions|
    ensures forall i :: 0 <= i < |chars| ==> r.contained[i] == chars[i].text
    ensures forall i :: 0 <= i < |actions| ==> r.contained[|chars| + i] == actions[i].text
    ensures "" !in r.containedShifted
    ensures |actions| > 0 ==>
              var last := actions[|actions| - 1];
              last.action in r.keyPos && r.keyPos[last.action] == last.rect
  {
    var positioned := UpdateKeyPositions(EmptyPad, chars, actions);
    var r := UpdateContainedKeys(positioned, chars, actions);
    var charLabels, actionLabels := Labels(chars), Labels(actions);
    assert r.contained == charLabels + actionLabels;
    assert forall i :: 0 <= i < |actions| ==> r.contained[|chars| + i] == actionLabels[i];
    r
  }

  /**
   _switch_to_state: nothing to do when already in `target`; otherwise one
   tap on the cached "shift" rectangle, after which the keypad is in
   `target` (the wait for the flipped state succeeds). Fails before tapping
   when "shift" has no cached rectangle.
   */
  function SwitchToState(pad: KeyPad, current: State, target: State): (r: Result<Trace>)
    ensures target == current ==> r == Ok(Trace([], current))
    ensures target != current && ShiftId in pad.keyPos ==>
              r == Ok(Trace([pad.keyPos[ShiftId]], target))
    ensures target != current && ShiftId !in pad.keyPos ==> r == Err(KeyNotFound(ShiftId))
  {
    if target == current then Ok(Trace([], current))
    else
      var expected := Flip(current);
      match GetKeyPosition(pad, ShiftId)
      case Err(e) => Err(e)
      case Ok(shiftRect) => Ok(Trace([shiftRect], expected))
  }

  /**
   press_key. An uncontained label is a silent no-op, checked before
   visibility; a contained label on an invisible keypad fails before any
   tap. Otherwise: switch to the required state, then tap the label's
   cached rectangle.
   */
  function PressKey(pad: KeyPad, state: State, visible: bool, name: string): (r: PressOutcome)
    ensures r.NoOp? <==> !ContainsKey(pad, name)
    ensures ContainsKey(pad, name) && !visible ==> r == Failed(NotVisible, [], state)
    ensures r.Pressed? ==>
              && visible
              && name in pad.keyPos
              && 1 <= |r.taps| <= 2
              && r.taps[|r.taps| - 1] == pad.keyPos[name]
              && (name in pad.contained ==> r.state == Normal)
              && (name !in pad.contained ==> r.state == Shifted)
              && (|r.taps| == 2 <==> state != r.state)
              && (|r.taps| == 2 ==> ShiftId in pad.keyPos && r.taps[0] == pad.keyPos[ShiftId])
    ensures r.Failed? ==> r.error != UnknownKey && |r.taps| <= 1
  {
    if !ContainsKey(pad, name) then NoOp
    else if !visible then Failed(NotVisible, [], state)
    else
      match RequiredState(pad, name)
      case Err(e) => Failed(e, [], state)
      case Ok(required) =>
        match SwitchToState(pad, state, required)
        case Err(e) => Failed(e, [], state)
        case Ok(switched) =>
          match GetKeyPosition(pad, name)
          case Err(e) => Failed(e, switched.taps, switched.state)
          case Ok(keyRect) => Pressed(switched.taps + [keyRect], switched.state)
  }

  /** press_key succeeds exactly when the label is contained, the keypad is
      visible, the label has a cached rectangle and, if a switch is needed,
      so does "shift". */
  lemma PressKeySucceedsIff(pad: KeyPad, state: State, visible: bool, name: string)
    ensures PressKey(pad, state, visible, name).Pressed? <==>
              && ContainsKey(pad, name)
              && visible
              && name in pad.keyPos
              && (state == RequiredState(pad, name).value || ShiftId in pad.keyPos)
  {
  }

  /** A contained label without a cached rectangle: press_key fails with
      the not-found error, after the shift tap (if one was needed) has already been
      made and the keypad has changed state. */
  lemma PressKeyMissingPosition(pad: KeyPad, state: State, name: string)
    requires ContainsKey(pad, name)
    requires name !in pad.keyPos
    requires state == RequiredState(pad, name).value || ShiftId in pad.keyPos
    ensures var required := RequiredState(pad, name).value;
      PressKey(pad, state, true, name) ==
        Failed(KeyNotFound(name),
               if state == required then [] else [pad.keyPos[ShiftId]],
               required)
  {
  }

  /** A needed switch without a cached "shift": press_key fails before any
      tap and the state is unchanged. */
  lemma PressKeyMissingShift(pad: KeyPad, state: State, name: string)
    requires ContainsKey(pad, name)
    requires state != RequiredState(pad, name).value
    requires ShiftId !in pad.keyPos
    ensures PressKey(pad, state, true, name) == Failed(KeyNotFound(ShiftId), [], state)
  {
  }

  /** After construction the normal list holds exactly the visible labels
      of the widgets of both categories. */
  lemma BuildNormalList(chars: seq<KeyWidget>, actions: seq<KeyWidget>, name: string)
    ensures name in Build(chars, actions).contained <==>
              || (exists i :: 0 <= i < |chars| && chars[i].text == name)
              || (exists i :: 0 <= i < |actions| && actions[i].text == name)
  {
    var pad := Build(chars, actions);
    if name in pad.contained {
      var k :| 0 <= k < |pad.contained| && pad.contained[k] == name;
      if k < |chars| {
        assert chars[k].text == name;
      } else {
        assert actions[k - |chars|].text == name;
      }
    }
    if exists i :: 0 <= i < |actions| && actions[i].text == name {
      var i :| 0 <= i < |actions| && actions[i].text == name;
      assert pad.contained[|chars| + i] == name;
    }
  }

  /** After construction the shifted list holds exactly the non-empty
      secondary labels of the widgets of both categories. */
  lemma BuildShiftedList(chars: seq<KeyWidget>, actions: seq<KeyWidget>, name: string)
    ensures name in Build(chars, actions).containedShifted <==>
              && name != ""
              && (|| (exists i :: 0 <= i < |chars| && chars[i].shifted == name)
                  || (exists i :: 0 <= i < |actions| && actions[i].shifted == name))
  {
    var shifted := ShiftedLabels(chars) + ShiftedLabels(actions);
    assert Build(chars, actions).containedShifted == [] + shifted;
    assert name in shifted <==> name in ShiftedLabels(chars) || name in ShiftedLabels(actions);
  }

  /** Some widget of `ws` offers `name` exactly when one has it as visible
      label or one has it as non-empty secondary label. */
  lemma OffersSplit(ws: seq<KeyWidget>, name: string)
    ensures (exists i :: 0 <= i < |ws| && Offers(ws[i], name)) <==>
              || (exists i :: 0 <= i < |ws| && ws[i].text == name)
              || (name != "" && exists i :: 0 <= i < |ws| && ws[i].shifted == name)
  {
    if exists i :: 0 <= i < |ws| && Offers(ws[i], name) {
      var i :| 0 <= i < |ws| && Offers(ws[i], name);
      assert ws[i].text == name || ws[i].shifted == name;
    }
  }

  /** After construction a label is contained exactly when some widget of
      either category offers it, as visible label or non-empty secondary
      label; "" is never contained through a secondary label. */
  lemma BuildContainsKey(chars: seq<KeyWidget>, actions: seq<KeyWidget>, name: string)
    ensures ContainsKey(Build(chars, actions), name) <==>
              || (exists i :: 0 <= i < |chars| && Offers(chars[i], name))
              || (exists i :: 0 <= i < |actions| && Offers(actions[i], name))
    ensures "" !in Build(chars, actions).containedShifted
  {
    var pad := Build(chars, actions);
    BuildNormalList(chars, actions, name);
    BuildShiftedList(chars, actions, name);
    OffersSplit(chars, name);
    OffersSplit(actions, name);
    assert ContainsKey(pad, name) <==> name in pad.contained || name in pad.containedShifted;
  }

  /** After construction get_key_position returns the rectangle of the last
      action key whose action or secondary label is `name`, else that of the
      last character key whose label or secondary label is `name`, and fails
      when no key wrote it. */
  lemma BuildKeyPosition(chars: seq<KeyWidget>, actions: seq<KeyWidget>, name: string)
    ensures GetKeyPosition(Build(chars, actions), name).Err? <==>
              Untouched(CharKey, chars, name) && Untouched(ActionKey, actions, name)
    ensures forall i :: LastWriter(ActionKey, actions, name, i) ==>
              GetKeyPosition(Build(chars, actions), name) == Ok(actions[i].rect)
    ensures forall i :: LastWriter(CharKey, chars, name, i) && Untouched(ActionKey, actions, name) ==>
              GetKeyPosition(Build(chars, actions), name) == Ok(chars[i].rect)
  {
    UpdateKeyPositionsLastWins(EmptyPad, chars, actions, name);
  }

  /** A normal-only key pressed while SHIFTED: one tap on "shift", then one
      on the key, ending NORMAL. */
  lemma ShiftedToNormalExample()
    ensures var a, s := Rect(0, 0, 10, 10), Rect(0, 40, 20, 10);
      var pad := Build([KeyWidget("a", "", "", a)], [KeyWidget("⇧", "shift", "", s)]);
      PressKey(pad, Shifted, true, "a") == Pressed([s, a], Normal)
  {
    var a, s := Rect(0, 0, 10, 10), Rect(0, 40, 20, 10);
    var chars, actions := [KeyWidget("a", "", "", a)], [KeyWidget("⇧", "shift", "", s)];
    var pad := Build(chars, actions);
    assert pad.contained[0] == "a";
    assert pad.keyPos[ShiftId] == s;
    BuildKeyPosition(chars, actions, "a");
    assert LastWriter(CharKey, chars, "a", 0);
    assert Untouched(ActionKey, actions, "a");
  }

  /** An action key whose label differs from its action is contained (by
      label) but cached only under its action, so pressing it by label
      fails with a not-found error. */
  lemma ActionLabelWithoutPositionExample()
    ensures var pad := Build([], [KeyWidget("⌫", "backspace", "", Rect(0, 0, 30, 10))]);
      && ContainsKey(pad, "⌫")
      && PressKey(pad, Normal, true, "⌫") == Failed(KeyNotFound("⌫"), [], Normal)
  {
  }
}
